=== FILE: README.md ===
# canvas-toy-server: the POST pipeline as a Dafny model

`server.py` accepts a drawing as a base64 PNG data URL over HTTP POST. It
runs the drawing through a fixed sequence of stages:

1. a process-wide sliding-window rate limit;
2. validation of the body;
3. `modify_image`, which flattens transparency onto white and stamps the creation time;
4. `insert_db`, which records the submission in a PostgreSQL "Image" table with the next gallery number;
5. `save_image`, which writes the PNG under a random uuid;
6. `send_image_on_discord_webhook`, a multipart POST to a Discord webhook.

The reply is 503 when the rate limit is hit and 400 when the body is invalid.
Otherwise it is 200, with one line per later stage that says whether the
stage worked.

This project models the decision rules in that pipeline as pure Dafny
functions over immutable data and proves their properties:

| module | file | models |
|---|---|---|
| `RateGate` | rate_gate.dfy | append, prune, compare against the limit (`do_POST`, lines 43-49) |
| `Utf8` | utf8.dfy | strict UTF-8 decoding of the body and encoding of the multipart text |
| `Envelope` | envelope.dfy | `validate_image`: Python's `split(',')`, the prefix check, base64 and Pillow as parameters |
| `Images` | images.dfy | `modify_image`: mode, size and `info` entries of an image (no pixels) |
| `Gallery` | gallery.dfy | `insert_db`: the max + 1 gallery number and what each database outcome returns |
| `Multipart` | multipart.dfy | the webhook body, its boundary, its file name and its Content-Length |
| `Coordinator` | coordinator.dfy | `do_POST` as one function from server state, clock, request and stage outcomes to new state and reply |

Everything `do_POST` calls but the model does not contain is a parameter,
collected in `Coordinator.World`:

- `b64decode` and Pillow's open/verify/reopen, as partial functions;
- PNG encoding, as a partial function: `img.save` at line 211 is not inside a `try`, so when it fails the handler writes no response;
- the webhook, as a function from the request to a status or an exception;
- whether `modify_image` raised;
- the database outcome (connect failed, query failed, committed);
- whether the file write succeeded;
- the two `uuid4` values.

The clock (`time()`, and the `datetime.now()` renderings) is a `Clock`
parameter. The limit, the period and the webhook path are a `Config`
parameter.

Behaviour of the code the model keeps deliberately:

- With a positive period, refused requests stay in the rate history, because
  the append comes first. With period 0 the new timestamp is pruned at once.
- Every validation failure becomes the same 400. `Envelope.Rejection` names
  which check failed, but callers cannot tell them apart. A wrong prefix is
  reported as a wrong prefix only when the body has exactly one comma.
  Otherwise the split already fails (`WrongPrefixIsReported`).
- A failure inside `modify_image` is not only cosmetic. It leaves the image
  with the decoded image's `info` as Pillow read it. That ordinarily has no
  `pnginfo` entry, so `save_image` fails too (`ModifyFailureFailsSave`, which
  assumes the entry is absent).
- A failed query after a successful connect still returns the uuid. The image
  is then saved under a name no gallery row refers to
  (`QueryFailureLeavesFileWithoutRecord`). So "every stored file has a record"
  does not hold.
- An exception in the webhook stage is not caught. This covers the PNG encoding
  at line 211 and the HTTPS call. The handler then writes no response at all
  (`Reply.NoResponse`).

## Model

| member | source | states |
|---|---|---|
| RateGate.Prune | server.py:45 | every kept timestamp satisfies `t + period > now`, and a timestamp is kept exactly when it was in the history and is still live |
| RateGate.PruneAppend | server.py:45 | pruning distributes over concatenation, so retained timestamps keep their relative order |
| RateGate.PruneCounts | server.py:45 | a live timestamp keeps all its occurrences and an expired one keeps none |
| RateGate.PruneAscendingIsSuffix | server.py:45 | on a history in time order, pruning cuts off a prefix and keeps the rest whole |
| RateGate.Gate | server.py:43-49 | the new history is the pruned old history followed by `now` when the period is positive (with period 0 `now` itself is expired); the request is admitted exactly when that window is no longer than the limit; with a positive period `now` is the window's last entry |
| RateGate.ZeroLimitRefusesAll | server.py:44-46 | with a positive period, a limit of 0 refuses every request, because the new timestamp counts |
| RateGate.RefusedRequestIsRecorded | server.py:44-49 | with a positive period, a refused request's timestamp stays in the shared history |
| RateGate.ZeroPeriodEmptiesWindow | server.py:45-46 | with period 0 and no future timestamps the window is empty, so only a negative limit refuses |
| RateGate.BurstAdmitsExactlyLimit | server.py:43-49 | for requests in time order within one retention period from a fresh history, request k is admitted exactly when k < limit |
| Utf8.Decode | server.py:111 | `decode("utf-8")` succeeds only on byte strings that are the encoding of their result, so encoding the decoded text gives the bytes back; the text is never longer than the bytes |
| Utf8.Encode | server.py:213 | `encode()` spends at least one byte per character; `DecodeEncode` and `EncodeAppend` are its round trip and concatenation laws |
| Utf8.EncodeCharDecodeFirst | server.py:111 | every character the strict decoder reads from the front of a byte string is encoded by exactly the bytes it consumed |
| Utf8.DecodeAcceptsExactlyEncodings | server.py:111 | a byte string decodes if and only if it is the UTF-8 encoding of some text |
| Utf8.DecodeRefusesMalformed | server.py:111 | a stray continuation byte, an overlong form, an encoded surrogate, a value above U+10FFFF and a truncated sequence are each refused |
| Utf8.DecodeFirstEncodeChar | server.py:111 | the strict decoder reads the encoding of any character back, whatever bytes follow |
| Utf8.DecodeEncode | server.py:111 | decoding the UTF-8 encoding of any text gives the text back |
| Utf8.EncodeAppend | server.py:213 | encoding the multipart text piece by piece equals encoding it whole |
| Envelope.Split | server.py:112 | `split(',')` returns at least one part and no part contains the separator |
| Envelope.JoinSplit | server.py:112 | joining the parts with the separator restores the text |
| Envelope.SplitJoin | server.py:112 | splitting text joined from separator-free parts gives those parts back |
| Envelope.SplitCount | server.py:112 | there is one more part than there are separators |
| Envelope.ParseEnvelope | server.py:112-113 | on acceptance the prefix is `data:image/png;base64` and the text is prefix, comma, comma-free suffix; refusals are only "not two parts" or "wrong prefix" |
| Envelope.ParseEnvelopeExactly | server.py:112-113 | the envelope check accepts a text if and only if it is the prefix, one comma, then no further comma, and it returns everything after the comma |
| Envelope.CommaCountDecides | server.py:112 | zero or several commas are refused as "not two parts", whatever the prefix, and exactly one comma never is |
| Envelope.ParseEnvelopeRoundTrip | server.py:112-113 | wrapping a comma-free suffix in the prefix and comma is read back as that suffix |
| Envelope.Validate | server.py:107-124 | a body is accepted if and only if it decodes as UTF-8, is a well-formed envelope, its suffix base64-decodes and Pillow opens the bytes; the result is that image with the suffix |
| Envelope.WrongPrefixIsReported | server.py:111-113 | a body with exactly one comma and a different prefix is refused for its prefix |
| Envelope.EncodedEnvelopeReachesDecoder | server.py:111-120 | the UTF-8 bytes of a well-formed envelope get past the text checks; the result then depends only on base64 decoding and Pillow |
| Images.Normalize | server.py:166-193 | RGBA and LA become RGB with the same size and a fresh `info`; any other mode and size is kept with its `info` entries; the EXIF dates and the "Creation Time" text are set either way |
| Images.NormalizeIdempotent | server.py:166-193 | normalizing twice with the same time stamp gives the same image as normalizing once |
| Images.NormalizeRemovesAlpha | server.py:170-174 | no image leaves `modify_image` as RGBA or LA, the two modes line 170 tests |
| Gallery.MaxNumber | server.py:145-148 | the number of the row sorted first by `gallery_number DESC` is an upper bound that some row attains |
| Gallery.NextNumber | server.py:145-151 | the new gallery number is 1 on an empty table, and otherwise one more than a number some row has and greater than every row's number |
| Gallery.Insert | server.py:151 | the insert keeps every existing row and adds one row carrying the next number |
| Gallery.InsertKeepsIncreasing | server.py:145-151 | if gallery numbers increase along the table, they still do after an insert |
| Gallery.IncreasingIsDistinct | server.py:145-151 | increasing gallery numbers are pairwise distinct |
| Gallery.InsertAllNumbersFromOne | server.py:145-151 | inserts one after another into an empty table number the rows 1, 2, 3, … |
| Gallery.InsertDb | server.py:132-164 | a uuid comes back exactly when the connection opened; only a committed insert changes the table |
| Multipart.Decimal | server.py:217 | `str(n)` is a non-empty digit string without leading zeros |
| Multipart.DecimalRoundTrip | server.py:217 | the Content-Length text reads back as the number it was written from |
| Multipart.Replace | server.py:207 | `replace(a, b)` keeps the length and turns exactly the `a`s into `b`s |
| Multipart.FilenameAsWritten | server.py:207 | the file name as the code builds it has the timestamp's length plus one plus up to 16 base64 characters plus `.png`, and contains a colon exactly when those base64 characters do |
| Multipart.FilenameAsWrittenKeepsColon | server.py:207 | the file name as written keeps a colon whenever the base64 text starts with one |
| Multipart.Filename | server.py:207 | the corrected file name contains no colon |
| Multipart.FilenameAgreesWithoutColon | server.py:207 | when the first 16 base64 characters contain no colon, the corrected and the as-written file names are equal |
| Multipart.Boundary | server.py:197 | the boundary is `------Boundary` followed by exactly the random token |
| Multipart.PayloadJson | server.py:199 | the JSON part is `{"content": "`, then exactly the timestamp text, then `"}` |
| Multipart.PartHeaders | server.py:201-208 | the text after the opening delimiter is exactly, in order: the payload_json part header, the JSON payload, a line break with the second delimiter and the file part's `Content-Disposition` up to `filename="`, the given file name, then a closing quote and the octet-stream part header |
| Multipart.Body | server.py:201-213 | the message body opens with the encoded opening delimiter, ends with the encoded closing delimiter, and holds the PNG bytes right before it |
| Multipart.FrameLayout | server.py:201-213 | the body opens with `--boundary\r\n`, ends with `\r\n--boundary--\r\n`, and holds the PNG bytes right before the closing delimiter |
| Multipart.BuildRequest | server.py:197-226 | the webhook request goes to discord.com on the configured path with a multipart Content-Type naming the boundary; its body is the multipart body whose file part carries the file name as written (`FilenameAsWritten`), and its Content-Length reads back as the body's byte length |
| Multipart.BuildRequestFraming | server.py:197-218 | the framing above holds for the request the handler sends, and its Content-Length header equals the body's byte length |
| Coordinator.ClientIp | server.py:74-75 | the client address recorded is the `X-Forwarded-For` value when that header is present and non-empty, and the socket address otherwise |
| Coordinator.ModifyStage | server.py:65-70 | the image keeps its size; when `modify_image` raises, the image is unchanged; otherwise it is neither RGBA nor LA, carries both metadata entries `save_image` reads, and keeps any other mode |
| Coordinator.SaveSucceeds | server.py:83-88 | the save succeeds if and only if there is a uuid, the image carries both `exif` and `pnginfo` entries, and the write succeeds |
| Coordinator.WebhookStage | server.py:195-233 | when PNG encoding fails the stage raises; otherwise its outcome is the webhook's answer to the request built from the path, the boundary token, the timestamp, the base64 text and the PNG bytes |
| Coordinator.HandlePost | server.py:38-97 | the rate history after a request is the gate's window; 503 exactly when the gate refuses; 400 exactly when admitted and the body is invalid; no response exactly when admitted, valid and the webhook stage (PNG encoding or the HTTPS call) raises; 200 exactly when admitted, valid and the webhook stage returns a status; a 503 or 400 changes neither table nor files |
| Coordinator.Render | server.py:65-95 | the 200 body read back gives each stage's outcome: the modify phrase is optional, then exactly one save phrase, then exactly one discord phrase |
| Coordinator.ReadSummaryOnlyRendered | server.py:65-95 | any text the reader accepts is the rendering of the outcomes it returns |
| Coordinator.ReplyReportsStages | server.py:64-97 | past the gate and validation, the 200 body reports modify failure exactly when modify raised, saving exactly when there is a uuid, metadata and a successful write, and discord success exactly when the webhook returned 200; a raising webhook leaves no response |
| Coordinator.NoConnectionNoSave | server.py:72-88 | when the database connection fails, no file is written, the table is unchanged, and a 200 reply reports the save as failed |
| Coordinator.ModifyFailureFailsSave | server.py:65-88 | if modify raised and the decoded image has no `pnginfo` entry, nothing is saved and the reply reports both failures |
| Coordinator.QueryFailureLeavesFileWithoutRecord | server.py:73-84 | a query failure after a successful connect still saves the image under a uuid that no gallery row names |
| Coordinator.CommittedRowNamesSavedFile | server.py:72-84 | on a committed insert and a successful write, the one new row names the saved file and the client address, and its number exceeds every earlier one |
| Coordinator.HandlePostKeepsGalleryIncreasing | server.py:72-79 | every request keeps the gallery numbers strictly increasing along the table |
| Coordinator.StatusIgnoresLaterStages | server.py:46-97 | two runs that agree on the gate and on validation answer with the same status, whatever their modify, database, save and webhook outcomes |

## Left out

- The HTTP server loop, `do_OPTIONS`, CORS and Content-Type headers, reading the body by `Content-Length` (lines 52-53, which can raise on a missing header) and writing the reply bytes. These are transport. The body arrives as a byte sequence.
- Loading `configuration.json` and `exit()`. The limit, the period and the webhook path are a `Config` parameter.
- Pillow's decoding, `verify`, pixel compositing and the `MAX_IMAGE_PIXELS` guard. These are a parameter (`openImage`).
  - Transparency other than an RGBA or LA mode is not modelled: a palette image with a `transparency` entry or an RGB/L colour key keeps its mode and passes `modify_image` still transparent. `Images.NormalizeRemovesAlpha` and `Coordinator.ModifyStage` speak only of the RGBA and LA mode names.
  - Pillow raises only above twice `MAX_IMAGE_PIXELS` and merely warns between once and twice, so the guard is not a strict width × height ceiling.
- `b64decode`. It is a parameter. Its default mode discards ASCII characters outside the base64 alphabet, which the finding below relies on; text with any non-ASCII character raises, so such a suffix is refused.
- piexif, `PngInfo` and `strftime`. The formatted time texts are fields of `Clock`. `Images.Meta` records which texts go where.
- psycopg2 and SQL. The database outcome is an input.
  - A NULL `gallery_number` is not modelled: PostgreSQL sorts NULLs first under `DESC`. The column is taken as non-null.
  - The string-interpolated INSERT, where `X-Forwarded-For` is pasted into the SQL, appears only as a possible query failure.
  - `commit`/`close` raising in `finally` is not modelled.
- Gallery.NextNumber: read-then-write atomicity is not modelled. `HTTPServer` serves one request at a time, so within one process two inserts cannot interleave. Several server processes on one database could still assign the same number.
- The HTTPS connection to discord.com. The webhook is a parameter from the built request to a status or an exception.
- `json.dumps` escaping of the `content` value. `str(datetime)` contains only digits, `-`, `:`, `.` and spaces, which need none.
- `time()` returns a float. Timestamps are integers here, since the gate only compares them.
- `uuid4` randomness. The two uuids are inputs.
- Logging (`print`).
- `python -O`, which strips the prefix `assert` at line 113. The model assumes assertions run.
- The `raise` at line 164 cannot be reached: the `finally` block either returns or raises first.

## Findings

| source | as written | input that shows it | evidently intended | confidence | as-written member | corrected member |
|---|---|---|---|---|---|---|
| server.py:207 | only `str(timestamp)` has its colons replaced; the first 16 base64 characters go into the file name unchanged | body `data:image/png;base64,:` followed by the base64 of a valid PNG; `b64decode` discards the `:`, validation passes, and the file name contains `:` | a file name without colons | medium, not executed | Multipart.FilenameAsWrittenKeepsColon | Multipart.Filename |

The webhook request in the model (`Multipart.BuildRequest`) carries the file
name as written (`Multipart.FilenameAsWritten`). `Multipart.Filename` is the
corrected definition, with the colon-free property proved about it.

=== FILE: coordinator.dfy ===
/**
 * `do_POST`: the rate gate, then validation, then the stages that can only
 * degrade the reply (modify, database, save, webhook), and the reply itself.
 * The clock, the request's bytes and headers, uuid4 and every foreign call
 * are inputs; the process-wide history, the "Image" table and the saved
 * files are the server state the handler threads through.
 */
module Coordinator {
  import opened Wrappers
  import opened Utf8
  import RateGate
  import Envelope
  import opened Images
  import Gallery
  import Multipart

  datatype Config = Config(globalRateLimit: int, globalRatePeriod: int, webhookPath: string)

  /** State that outlives a request: the rate history, the database table and the saved image files by name. */
  datatype Server = Server(history: seq<int>, gallery: seq<Gallery.Record>, files: map<string, Image>)

  /** The renderings of `datetime.now()` the handler uses. */
  datatype Clock = Clock(
    seconds: int,        // time()
    display: string,     // str(timestamp)
    sqlText: string,     // strftime('%Y-%m-%d %H:%M:%S'), written to the database
    exifText: string)    // strftime('%Y:%m:%d %H:%M:%S'), stamped into the image

  /** One POST as it arrives. */
  datatype Post = Post(body: Bytes, forwardedFor: Option<string>, clientAddress: string)

  /**
   * What `send_image_on_discord_webhook` ends in: a status, or an exception
   * (from the PNG encoding or the HTTPS call) that `do_POST` does not catch.
   */
  datatype WebhookOutcome = Status(code: int) | Raised

  /**
   * The behaviour of everything the handler calls but the model does not
   * contain: library calls as functions, and the outcome of each I/O step.
   */
  datatype World = World(
    b64decode: string -> Option<Bytes>,
    openImage: Bytes -> Option<Image>,
    encodePng: Image -> Option<Bytes>,   // img.save(..., format='PNG'); None when it raises
    modifyRaises: bool,           // Pillow or piexif raised inside modify_image
    db: Gallery.DbOutcome,
    writeSucceeds: bool,          // the file system accepted img.save
    uuid: string,                 // uuid4() in insert_db
    boundaryToken: string,        // uuid4().hex in the webhook call
    webhook: Multipart.WebhookRequest -> WebhookOutcome)

  /** A written response, or none: an exception escaped the handler. */
  datatype Reply = Respond(status: int, body: string) | NoResponse

  datatype Handled = Handled(server: Server, reply: Reply)

  const TooManyRequests := "Receiving too many requests! Please wait a while.\n"
  const InvalidBody := "Invalid message body.\n"
  const ModifyFailed := "Failed to modify image. \n"
  const Saved := "Successfully saved image!\n"
  const SaveFailed := "Failed to save image.\n"
  const Sent := "Successfully sent to discord!\n"
  const SendFailed := "Failed to send to discord.\n"

  /** `forwarded_ip if forwarded_ip else self.client_address[0]`: an empty header counts as absent. */
  function ClientIp(post: Post): (ip: string)
    ensures post.forwardedFor.Some? && post.forwardedFor.value != "" ==> ip == post.forwardedFor.value
    ensures post.forwardedFor.None? || post.forwardedFor.value == "" ==> ip == post.clientAddress
  {
    match post.forwardedFor
    case Some(ip) => if ip != "" then ip else post.clientAddress
    case None => post.clientAddress
  }

  /**
   * Whether `save_image` goes through: it raises when `img_UUID` was never
   * bound, when the image lacks either metadata entry, or when the write fails.
   */
  function SaveSucceeds(id: Option<string>, img: Image, world: World): (ok: bool)
    ensures ok ==> id.Some? && ExifKey in img.info && PngInfoKey in img.info && world.writeSucceeds
    ensures id.Some? && ExifKey in img.info && PngInfoKey in img.info && world.writeSucceeds ==> ok
  {
    id.Some? && HasSaveMetadata(img) && world.writeSucceeds
  }

  /**
   * The image after `modify_image`: the decoded one when the call raised
   * (the caller's variable is not reassigned), otherwise the normalized one,
   * which is neither RGBA nor LA and carries both metadata entries.
   */
  function ModifyStage(img: Image, clock: Clock, world: World): (r: Image)
    ensures r.width == img.width && r.height == img.height
    ensures world.modifyRaises ==> r == img
    ensures !world.modifyRaises ==> r.mode !in AlphaModes && HasSaveMetadata(r)
    ensures !world.modifyRaises && img.mode !in AlphaModes ==> r.mode == img.mode
  {
    if world.modifyRaises then img else Normalize(img, clock.exifText)
  }

  /**
   * `send_image_on_discord_webhook`: encode the image as PNG, build the
   * multipart request and post it. A failing encode raises before any
   * request is sent.
   */
  function WebhookStage(cfg: Config, clock: Clock, world: World, base64: string, img: Image): (r: WebhookOutcome)
    ensures world.encodePng(img).None? ==> r.Raised?
    ensures world.encodePng(img).Some? ==>
              r == world.webhook(Multipart.BuildRequest(cfg.webhookPath, world.boundaryToken, clock.display,
                                                        base64, world.encodePng(img).value))
  {
    match world.encodePng(img)
    case None => Raised
    case Some(png) =>
      world.webhook(Multipart.BuildRequest(cfg.webhookPath, world.boundaryToken, clock.display, base64, png))
  }

  /** Whether the gate admits this request, and whether its body validates. */
  predicate Admitted(cfg: Config, server: Server, clock: Clock) {
    RateGate.Gate(server.history, clock.seconds, cfg.globalRatePeriod, cfg.globalRateLimit).admitted
  }

  predicate ValidBody(post: Post, world: World) {
    Envelope.Validate(post.body, world.b64decode, world.openImage).Success?
  }

  function HandlePost(cfg: Config, server: Server, clock: Clock, post: Post, world: World): (h: Handled)
    ensures h.server.history == RateGate.Gate(server.history, clock.seconds, cfg.globalRatePeriod, cfg.globalRateLimit).window
    ensures h.reply == Respond(503, TooManyRequests) <==> !Admitted(cfg, server, clock)
    ensures h.reply == Respond(400, InvalidBody) <==> Admitted(cfg, server, clock) && !ValidBody(post, world)
    ensures !(Admitted(cfg, server, clock) && ValidBody(post, world)) ==>
              h.server.gallery == server.gallery && h.server.files == server.files
    ensures h.reply.NoResponse? <==>
              && Admitted(cfg, server, clock) && ValidBody(post, world)
              && WebhookStage(cfg, clock, world, Accepted(post, world).base64,
                              ModifyStage(Accepted(post, world).image, clock, world)).Raised?
    ensures h.reply.Respond? ==> h.reply.status in {200, 400, 503}
    ensures h.reply.Respond? && h.reply.status == 200 <==>
              && Admitted(cfg, server, clock) && ValidBody(post, world)
              && WebhookStage(cfg, clock, world, Accepted(post, world).base64,
                              ModifyStage(Accepted(post, world).image, clock, world)).Status?
  {
    var gate := RateGate.Gate(server.history, clock.seconds, cfg.globalRatePeriod, cfg.globalRateLimit);
    var server1 := server.(history := gate.window);
    if !gate.admitted then Handled(server1, Respond(503, TooManyRequests))
    else
      match Envelope.Validate(post.body, world.b64decode, world.openImage)
      case Failure(_) => Handled(server1, Respond(400, InvalidBody))
      case Success(v) =>
        var img := ModifyStage(v.image, clock, world);
        var reply1 := if world.modifyRaises then ModifyFailed else "";
        var (table, id) := Gallery.InsertDb(server.gallery, world.db, clock.sqlText, ClientIp(post), world.uuid);
        var saved := SaveSucceeds(id, img, world);
        var files := if saved then server.files[id.value := img] else server.files;
        var reply2 := reply1 + (if saved then Saved else SaveFailed);
        var server2 := Server(gate.window, table, files);
        match WebhookStage(cfg, clock, world, v.base64, img)
        case Raised => Handled(server2, NoResponse)
        case Status(code) =>
          Handled(server2, Respond(200, reply2 + (if code == 200 then Sent else SendFailed)))
  }

  /** What a 200 reply reports, stage by stage. */
  datatype Summary = Summary(modifyFailed: bool, saved: bool, sent: bool)

  /**
   * The stage log written out: the optional modify phrase, then the save
   * phrase, then the webhook phrase. The phrases name each outcome
   * unambiguously: reading the text back recovers them all.
   */
  function Render(s: Summary): (text: string)
    ensures ReadSummary(text) == Some(s)
  {
    var a := if s.modifyFailed then ModifyFailed else "";
    var b := if s.saved then Saved else SaveFailed;
    var tail := if s.sent then Sent else SendFailed;
    ConcatAssoc(a, b, tail);
    ReadModifyPhrase(s.modifyFailed, b + tail, tail);
    ReadSavePhrase(s.saved, tail);
    assert ReadSend(tail) == Some(s.sent);
    a + b + tail
  }

  /** `s` minus the prefix `p`, if `s` starts with `p`. */
  function StripPrefix(s: string, p: string): (r: Option<string>)
    ensures r.Some? <==> |p| <= |s| && s[..|p|] == p
    ensures r.Some? ==> s == p + r.value
  {
    if |p| <= |s| && s[..|p|] == p then Some(s[|p|..]) else None
  }

  /** Reads the optional modify phrase off the front of a reply body. */
  function ReadModify(body: string): (r: (bool, string))
    ensures body == (if r.0 then ModifyFailed else "") + r.1
  {
    match StripPrefix(body, ModifyFailed)
    case Some(rest) => (true, rest)
    case None => (false, body)
  }

  /** Reads the save phrase off the front of what follows. */
  function ReadSave(rest: string): (r: Option<(bool, string)>)
    ensures r.Some? ==> rest == (if r.value.0 then Saved else SaveFailed) + r.value.1
  {
    match StripPrefix(rest, Saved)
    case Some(tail) => Some((true, tail))
    case None =>
      match StripPrefix(rest, SaveFailed)
      case Some(tail) => Some((false, tail))
      case None => None
  }

  /** Reads the webhook phrase, which must be all that is left. */
  function ReadSend(tail: string): (r: Option<bool>)
    ensures r.Some? ==> tail == if r.value then Sent else SendFailed
  {
    if tail == Sent then Some(true) else if tail == SendFailed then Some(false) else None
  }

  /** Reads a 200 reply body back into the stage outcomes it reports; None for any other text. */
  function ReadSummary(body: string): Option<Summary> {
    var (modifyFailed, rest) := ReadModify(body);
    match ReadSave(rest)
    case None => None
    case Some((saved, tail)) =>
      match ReadSend(tail)
      case None => None
      case Some(sent) => Some(Summary(modifyFailed, saved, sent))
  }

  lemma NotModifyFailed(rest: string, x: string)
    requires rest == Saved + x || rest == SaveFailed + x
    ensures StripPrefix(rest, ModifyFailed).None?
  {
    if |ModifyFailed| <= |rest| {
      if rest == Saved + x {
        assert rest[0] != ModifyFailed[0];
      } else {
        assert rest[10] != ModifyFailed[10];
      }
    }
  }

  lemma ReadModifyPhrase(m: bool, rest: string, tail: string)
    requires rest == Saved + tail || rest == SaveFailed + tail
    ensures ReadModify((if m then ModifyFailed else "") + rest) == (m, rest)
  {
    var body := (if m then ModifyFailed else "") + rest;
    if m {
      assert body[..|ModifyFailed|] == ModifyFailed;
      assert body[|ModifyFailed|..] == rest;
    } else {
      assert body == rest;
      NotModifyFailed(rest, tail);
    }
  }

  lemma ReadSavePhrase(saved: bool, tail: string)
    ensures ReadSave((if saved then Saved else SaveFailed) + tail) == Some((saved, tail))
  {
    var rest := (if saved then Saved else SaveFailed) + tail;
    if saved {
      assert rest[..|Saved|] == Saved;
      assert rest[|Saved|..] == tail;
    } else {
      assert rest[0] != Saved[0];
      assert rest[..|SaveFailed|] == SaveFailed;
      assert rest[|SaveFailed|..] == tail;
    }
  }

  /** Only a rendered body reads back: whatever ReadSummary accepts is the rendering of what it returns. */
  lemma ReadSummaryOnlyRendered(body: string)
    requires ReadSummary(body).Some?
    ensures Render(ReadSummary(body).value) == body
  {
    var r := ReadModify(body);
    var save := ReadSave(r.1);
    assert save.Some?;
    var send := ReadSend(save.value.1);
    assert send.Some?;
    assert ReadSummary(body) == Some(Summary(r.0, save.value.0, send.value));
    RenderParts(body, r.0, r.1, save.value.0, save.value.1, send.value);
  }

  lemma RenderParts(body: string, m: bool, rest: string, saved: bool, tail: string, sent: bool)
    requires body == (if m then ModifyFailed else "") + rest
    requires rest == (if saved then Saved else SaveFailed) + tail
    requires tail == if sent then Sent else SendFailed
    ensures Render(Summary(m, saved, sent)) == body
  {
    ConcatAssoc(if m then ModifyFailed else "", if saved then Saved else SaveFailed, tail);
  }

  lemma ConcatAssoc(a: string, b: string, c: string)
    ensures (a + b) + c == a + (b + c)
  {
  }

  /** The validated body of an admitted, valid request. */
  function Accepted(post: Post, world: World): Envelope.Validated
    requires ValidBody(post, world)
  {
    Envelope.Validate(post.body, world.b64decode, world.openImage).value
  }

  /**
   * Once past the gate and validation, the reply reports each later stage:
   * the modify phrase exactly when modify_image raised, the save phrase
   * exactly when the database stage produced a uuid, the image carried its
   * metadata and the write went through, and the discord phrase exactly
   * when the webhook answered 200. An exception from the webhook call leaves
   * no response at all.
   */
  lemma ReplyReportsStages(cfg: Config, server: Server, clock: Clock, post: Post, world: World)
    requires Admitted(cfg, server, clock) && ValidBody(post, world)
    ensures var v := Accepted(post, world);
            var img := ModifyStage(v.image, clock, world);
            var outcome := WebhookStage(cfg, clock, world, v.base64, img);
            var h := HandlePost(cfg, server, clock, post, world);
            && (h.reply.NoResponse? <==> outcome.Raised?)
            && (h.reply.Respond? ==>
                  h.reply.status == 200
                  && ReadSummary(h.reply.body)
                     == Some(Summary(world.modifyRaises,
                                     world.db != Gallery.ConnectFailed && HasSaveMetadata(img) && world.writeSucceeds,
                                     outcome.code == 200)))
  {
    var v := Accepted(post, world);
    var img := ModifyStage(v.image, clock, world);
    var outcome := WebhookStage(cfg, clock, world, v.base64, img);
    var saved := world.db != Gallery.ConnectFailed && HasSaveMetadata(img) && world.writeSucceeds;
    var h := HandlePost(cfg, server, clock, post, world);
    if outcome.Status? {
      var s := Summary(world.modifyRaises, saved, outcome.code == 200);
      assert h.reply.body == Render(s);
    }
  }

  /**
   * When psycopg2.connect raises, insert_db raises too, `img_UUID` is never
   * bound and save_image fails: no file is written and the reply says so.
   */
  lemma NoConnectionNoSave(cfg: Config, server: Server, clock: Clock, post: Post, world: World)
    requires world.db == Gallery.ConnectFailed
    ensures var h := HandlePost(cfg, server, clock, post, world);
            && h.server.files == server.files
            && h.server.gallery == server.gallery
            && (h.reply.Respond? && h.reply.status == 200 ==>
                  ReadSummary(h.reply.body).Some? && !ReadSummary(h.reply.body).value.saved)
  {
    var h := HandlePost(cfg, server, clock, post, world);
    if Admitted(cfg, server, clock) && ValidBody(post, world) {
      ReplyReportsStages(cfg, server, clock, post, world);
    }
  }

  /**
   * A modify_image that raises leaves the decoded image's `info` as it was;
   * when that has no `pnginfo` entry, save_image raises on it as well.
   */
  lemma ModifyFailureFailsSave(cfg: Config, server: Server, clock: Clock, post: Post, world: World)
    requires Admitted(cfg, server, clock) && ValidBody(post, world)
    requires world.modifyRaises && PngInfoKey !in Accepted(post, world).image.info
    ensures var h := HandlePost(cfg, server, clock, post, world);
            && h.server.files == server.files
            && (h.reply.Respond? ==>
                  ReadSummary(h.reply.body).Some?
                  && ReadSummary(h.reply.body).value.modifyFailed
                  && !ReadSummary(h.reply.body).value.saved)
  {
    ReplyReportsStages(cfg, server, clock, post, world);
  }

  /**
   * A query failure after a successful connect still returns the uuid, so
   * the image is saved under a name no gallery row refers to.
   */
  lemma QueryFailureLeavesFileWithoutRecord(cfg: Config, server: Server, clock: Clock, post: Post, world: World)
    requires Admitted(cfg, server, clock) && ValidBody(post, world)
    requires !world.modifyRaises && world.writeSucceeds && world.db == Gallery.QueryFailed
    requires forall i :: 0 <= i < |server.gallery| ==> server.gallery[i].imgFilename != world.uuid
    ensures var h := HandlePost(cfg, server, clock, post, world);
            && world.uuid in h.server.files
            && forall i :: 0 <= i < |h.server.gallery| ==> h.server.gallery[i].imgFilename != world.uuid
  {
  }

  /**
   * When the insert commits and the file is written, the new row and the new
   * file share the uuid, and the row's gallery number is past every earlier one.
   */
  lemma CommittedRowNamesSavedFile(cfg: Config, server: Server, clock: Clock, post: Post, world: World)
    requires Admitted(cfg, server, clock) && ValidBody(post, world)
    requires !world.modifyRaises && world.writeSucceeds && world.db == Gallery.Committed
    ensures var h := HandlePost(cfg, server, clock, post, world);
            var row := h.server.gallery[|server.gallery|];
            && |h.server.gallery| == |server.gallery| + 1
            && h.server.gallery[..|server.gallery|] == server.gallery
            && row.imgFilename == world.uuid && world.uuid in h.server.files
            && row.ipSource == ClientIp(post)
            && forall i :: 0 <= i < |server.gallery| ==> server.gallery[i].galleryNumber < row.galleryNumber
  {
  }

  /** Every request keeps the gallery numbers strictly increasing along the table. */
  lemma HandlePostKeepsGalleryIncreasing(cfg: Config, server: Server, clock: Clock, post: Post, world: World)
    requires Gallery.Increasing(server.gallery)
    ensures Gallery.Increasing(HandlePost(cfg, server, clock, post, world).server.gallery)
  {
    if Admitted(cfg, server, clock) && ValidBody(post, world) && world.db == Gallery.Committed {
      Gallery.InsertKeepsIncreasing(server.gallery, clock.sqlText, ClientIp(post), world.uuid);
    }
  }

  /**
   * The status depends only on the gate and on validation: two runs that
   * agree on those, whatever their modify, database, save and webhook
   * outcomes, answer with the same status.
   */
  lemma StatusIgnoresLaterStages(cfg: Config, server: Server, clock: Clock, post: Post, w1: World, w2: World)
    requires w1.b64decode == w2.b64decode && w1.openImage == w2.openImage
    ensures var r1 := HandlePost(cfg, server, clock, post, w1).reply;
            var r2 := HandlePost(cfg, server, clock, post, w2).reply;
            r1.Respond? && r2.Respond? ==> r1.status == r2.status
  {
  }
}

=== FILE: envelope.dfy ===
/**
 * `validate_image`: the body is decoded as UTF-8, split on ',' into exactly
 * two parts, the first of which must be the data-URL prefix of a base64 PNG;
 * the second is base64-decoded and handed to Pillow, which must open and
 * verify it. base64 decoding and Pillow are parameters of the model.
 */
module Envelope {
  import opened Wrappers
  import opened Utf8
  import opened Images

  const PngDataPrefix := "data:image/png;base64"
  const Comma := ','

  /** Number of occurrences of `c` in `s`. */
  function Count(s: string, c: char): nat {
    if |s| == 0 then 0 else (if s[0] == c then 1 else 0) + Count(s[1..], c)
  }

  /** Python's `s.split(sep)` for a one-character separator. */
  function Split(s: string, sep: char): (parts: seq<string>)
    ensures |parts| >= 1
    ensures forall i :: 0 <= i < |parts| ==> sep !in parts[i]
  {
    if |s| == 0 then [""]
    else
      var rest := Split(s[1..], sep);
      if s[0] == sep then [""] + rest
      else [[s[0]] + rest[0]] + rest[1..]
  }

  /** Python's `sep.join(parts)`. */
  function Join(parts: seq<string>, sep: char): string
    requires |parts| >= 1
  {
    if |parts| == 1 then parts[0] else parts[0] + [sep] + Join(parts[1..], sep)
  }

  /** Joining the pieces puts the text back together. */
  lemma {:induction false} JoinSplit(s: string, sep: char)
    ensures Join(Split(s, sep), sep) == s
    decreases |s|
  {
    if |s| > 0 {
      var rest := Split(s[1..], sep);
      JoinSplit(s[1..], sep);
      if s[0] == sep {
        assert Split(s, sep)[1..] == rest;
      } else {
        var parts := Split(s, sep);
        assert parts[0] == [s[0]] + rest[0];
        if |rest| == 1 {
          assert s == [s[0]] + rest[0];
        } else {
          assert parts[1..] == rest[1..];
          assert s == [s[0]] + s[1..];
        }
      }
    }
  }

  /** Splitting text joined from separator-free pieces gives the pieces back. */
  lemma {:induction false} SplitJoin(parts: seq<string>, sep: char)
    requires |parts| >= 1
    requires forall i :: 0 <= i < |parts| ==> sep !in parts[i]
    ensures Split(Join(parts, sep), sep) == parts
    decreases |parts|
  {
    if |parts| == 1 {
      SplitFree(parts[0], sep);
    } else {
      SplitJoin(parts[1..], sep);
      SplitAfter(parts[0], Join(parts[1..], sep), sep);
    }
  }

  /** Text without the separator is a single piece. */
  lemma {:induction false} SplitFree(s: string, sep: char)
    requires sep !in s
    ensures Split(s, sep) == [s]
    decreases |s|
  {
    if |s| > 0 {
      SplitFree(s[1..], sep);
      assert [s[0]] + s[1..] == s;
    }
  }

  /** A separator-free head followed by a separator splits off as the first piece. */
  lemma {:induction false} SplitAfter(head: string, tail: string, sep: char)
    requires sep !in head
    ensures Split(head + [sep] + tail, sep) == [head] + Split(tail, sep)
    decreases |head|
  {
    var s := head + [sep] + tail;
    if |head| == 0 {
      assert s[1..] == tail;
    } else {
      assert s[1..] == head[1..] + [sep] + tail;
      SplitAfter(head[1..], tail, sep);
      assert [head[0]] + head[1..] == head;
    }
  }

  /** There is one more piece than there are separators. */
  lemma {:induction false} SplitCount(s: string, sep: char)
    ensures |Split(s, sep)| == Count(s, sep) + 1
    decreases |s|
  {
    if |s| > 0 {
      SplitCount(s[1..], sep);
    }
  }

  /** Why a body was refused. The source raises the same ValueError for each. */
  datatype Rejection =
    | NotUtf8        // bytes.decode("utf-8") raised
    | NotTwoParts    // tuple unpacking of split(',') raised
    | WrongPrefix    // the assert on the prefix failed
    | NotBase64      // b64decode raised
    | NotAnImage     // Image.open or verify raised

  /** The prefix and suffix of an accepted envelope. */
  datatype Parts = Parts(prefix: string, suffix: string)

  /** The text-level checks of `validate_image`, lines 112-113. */
  function ParseEnvelope(text: string): (r: Result<Parts, Rejection>)
    ensures r.Success? ==> r.value.prefix == PngDataPrefix
                           && text == r.value.prefix + [Comma] + r.value.suffix
                           && Comma !in r.value.suffix
    ensures r.Failure? ==> r.error in {NotTwoParts, WrongPrefix}
  {
    var parts := Split(text, Comma);
    if |parts| != 2 then Failure(NotTwoParts)
    else if parts[0] != PngDataPrefix then Failure(WrongPrefix)
    else
      JoinSplit(text, Comma);
      Success(Parts(parts[0], parts[1]))
  }

  /** The text shape the envelope check accepts: the prefix, one comma, then no other comma. */
  predicate WellFormedEnvelope(text: string) {
    && |text| > |PngDataPrefix|
    && text[..|PngDataPrefix|] == PngDataPrefix
    && text[|PngDataPrefix|] == Comma
    && Comma !in text[|PngDataPrefix| + 1..]
  }

  /** The envelope check accepts exactly the well-formed texts, and then returns what follows the comma. */
  lemma ParseEnvelopeExactly(text: string)
    ensures ParseEnvelope(text).Success? <==> WellFormedEnvelope(text)
    ensures WellFormedEnvelope(text) ==> ParseEnvelope(text).value.suffix == text[|PngDataPrefix| + 1..]
  {
    var n := |PngDataPrefix|;
    if WellFormedEnvelope(text) {
      var suffix := text[n + 1..];
      assert text == PngDataPrefix + [Comma] + suffix;
      assert Comma !in PngDataPrefix;
      SplitAfter(PngDataPrefix, suffix, Comma);
      SplitFree(suffix, Comma);
    }
    if ParseEnvelope(text).Success? {
      var p := ParseEnvelope(text).value;
      assert text[..n] == p.prefix;
      assert text[n + 1..] == p.suffix;
    }
  }

  /** Zero commas, or more than one, is refused as malformed, whatever the prefix. */
  lemma CommaCountDecides(text: string)
    ensures Count(text, Comma) != 1 ==> ParseEnvelope(text) == Failure(NotTwoParts)
    ensures Count(text, Comma) == 1 ==> ParseEnvelope(text) != Failure(NotTwoParts)
  {
    SplitCount(text, Comma);
  }

  /** The envelope round trip: a suffix without commas wrapped in the prefix is read back. */
  lemma ParseEnvelopeRoundTrip(suffix: string)
    requires Comma !in suffix
    ensures ParseEnvelope(PngDataPrefix + [Comma] + suffix) == Success(Parts(PngDataPrefix, suffix))
  {
    var text := PngDataPrefix + [Comma] + suffix;
    assert text[..|PngDataPrefix|] == PngDataPrefix;
    assert text[|PngDataPrefix| + 1..] == suffix;
    ParseEnvelopeExactly(text);
  }

  /** What a valid body yields: the opened image and the base64 text it came from. */
  datatype Validated = Validated(image: Image, base64: string)

  /**
   * `validate_image` with its library calls as parameters: `b64decode` is a
   * partial function from text to bytes, and `openImage` stands for
   * `Image.open`, `verify` and the second `Image.open` on the same bytes.
   */
  function Validate(body: Bytes, b64decode: string -> Option<Bytes>, openImage: Bytes -> Option<Image>)
    : (r: Result<Validated, Rejection>)
    ensures r.Success? <==>
              exists text ::
                && Decode(body) == Some(text)
                && WellFormedEnvelope(text)
                && b64decode(text[|PngDataPrefix| + 1..]).Some?
                && openImage(b64decode(text[|PngDataPrefix| + 1..]).value).Some?
    ensures r.Success? ==>
              && Decode(body).Some?
              && Decode(body).value == PngDataPrefix + [Comma] + r.value.base64
              && Some(r.value.image) == openImage(b64decode(r.value.base64).value)
  {
    match Decode(body)
    case None => Failure(NotUtf8)
    case Some(text) =>
      ParseEnvelopeExactly(text);
      match ParseEnvelope(text)
      case Failure(e) => Failure(e)
      case Success(parts) =>
        match b64decode(parts.suffix)
        case None => Failure(NotBase64)
        case Some(bytes) =>
          match openImage(bytes)
          case None => Failure(NotAnImage)
          case Some(img) => Success(Validated(img, parts.suffix))
  }

  /** A body whose envelope has a wrong prefix but exactly one comma is refused for its prefix. */
  lemma WrongPrefixIsReported(body: Bytes, b64decode: string -> Option<Bytes>, openImage: Bytes -> Option<Image>)
    requires Decode(body).Some?
    requires Count(Decode(body).value, Comma) == 1
    requires Split(Decode(body).value, Comma)[0] != PngDataPrefix
    ensures Validate(body, b64decode, openImage) == Failure(WrongPrefix)
  {
    SplitCount(Decode(body).value, Comma);
  }

  /** The encoding of a well-formed envelope passes the text checks and reaches the decoders. */
  lemma EncodedEnvelopeReachesDecoder(suffix: string, b64decode: string -> Option<Bytes>, openImage: Bytes -> Option<Image>)
    requires Comma !in suffix
    ensures var r := Validate(Encode(PngDataPrefix + [Comma] + suffix), b64decode, openImage);
            && (b64decode(suffix).None? ==> r == Failure(NotBase64))
            && (b64decode(suffix).Some? && openImage(b64decode(suffix).value).Some? ==>
                  r == Success(Validated(openImage(b64decode(suffix).value).value, suffix)))
  {
    DecodeEncode(PngDataPrefix + [Comma] + suffix);
    ParseEnvelopeRoundTrip(suffix);
  }
}

=== FILE: gallery.dfy ===
/**
 * `insert_db`: the next gallery number is one more than the largest number in
 * the "Image" table, or 1 when the table is empty, and a row carrying it is
 * inserted. The table is a sequence of records in insertion order.
 */
module Gallery {
  import opened Wrappers

  datatype Record = Record(timestamp: string, ipSource: string, imgFilename: string, galleryNumber: int)

  /** The number of the row `ORDER BY "gallery_number" DESC LIMIT 1` returns. */
  function MaxNumber(table: seq<Record>): (m: int)
    requires |table| > 0
    ensures forall i :: 0 <= i < |table| ==> table[i].galleryNumber <= m
    ensures exists i :: 0 <= i < |table| && table[i].galleryNumber == m
  {
    if |table| == 1 then table[0].galleryNumber
    else
      var rest := MaxNumber(table[1..]);
      assert table[1..][0] == table[1];
      if table[0].galleryNumber >= rest then table[0].galleryNumber else rest
  }

  /** `last_gallery_number + 1`, where an empty table counts as 0. */
  function NextNumber(table: seq<Record>): (n: int)
    ensures forall i :: 0 <= i < |table| ==> table[i].galleryNumber < n
    ensures |table| == 0 ==> n == 1
    ensures |table| > 0 ==> exists i :: 0 <= i < |table| && table[i].galleryNumber == n - 1
  {
    if |table| == 0 then 1 else MaxNumber(table) + 1
  }

  /** The INSERT: a new row after the existing ones, numbered past all of them. */
  function Insert(table: seq<Record>, timestamp: string, ipSource: string, filename: string): (t: seq<Record>)
    ensures |t| == |table| + 1 && t[..|table|] == table
    ensures t[|table|] == Record(timestamp, ipSource, filename, NextNumber(table))
  {
    table + [Record(timestamp, ipSource, filename, NextNumber(table))]
  }

  /** Gallery numbers grow strictly along the table. */
  predicate Increasing(table: seq<Record>) {
    forall i, j :: 0 <= i < j < |table| ==> table[i].galleryNumber < table[j].galleryNumber
  }

  /** No two rows share a gallery number. */
  predicate Distinct(table: seq<Record>) {
    forall i, j :: 0 <= i < |table| && 0 <= j < |table| && i != j ==> table[i].galleryNumber != table[j].galleryNumber
  }

  lemma InsertKeepsIncreasing(table: seq<Record>, timestamp: string, ipSource: string, filename: string)
    requires Increasing(table)
    ensures Increasing(Insert(table, timestamp, ipSource, filename))
  {
  }

  lemma IncreasingIsDistinct(table: seq<Record>)
    requires Increasing(table)
    ensures Distinct(table)
  {
    forall i, j | 0 <= i < |table| && 0 <= j < |table| && i != j
      ensures table[i].galleryNumber != table[j].galleryNumber
    {
      if i < j {
        assert table[i].galleryNumber < table[j].galleryNumber;
      } else {
        assert table[j].galleryNumber < table[i].galleryNumber;
      }
    }
  }

  /** One new row's details: timestamp text, source address, file name. */
  datatype Submission = Submission(timestamp: string, ipSource: string, filename: string)

  /** The table after inserting `subs` one at a time. */
  function InsertAll(table: seq<Record>, subs: seq<Submission>): (t: seq<Record>)
    ensures |t| == |table| + |subs|
    decreases |subs|
  {
    if |subs| == 0 then table
    else
      var last := subs[|subs| - 1];
      Insert(InsertAll(table, subs[..|subs| - 1]), last.timestamp, last.ipSource, last.filename)
  }

  /**
   * Inserting one after another into an empty table numbers the rows
   * 1, 2, 3, … in insertion order.
   */
  lemma {:induction false} InsertAllNumbersFromOne(subs: seq<Submission>)
    ensures forall i :: 0 <= i < |subs| ==> InsertAll([], subs)[i].galleryNumber == i + 1
    decreases |subs|
  {
    if |subs| > 0 {
      var n := |subs| - 1;
      var last := subs[n];
      var before := InsertAll([], subs[..n]);
      InsertAllNumbersFromOne(subs[..n]);
      NextOfNumbered(before);
      var after := Insert(before, last.timestamp, last.ipSource, last.filename);
      assert InsertAll([], subs) == after;
      forall i | 0 <= i < n
        ensures after[i].galleryNumber == i + 1
      {
        assert after[i] == after[..n][i];
      }
    }
  }

  /** A table numbered 1, 2, …, n in order gets n + 1 next. */
  lemma NextOfNumbered(table: seq<Record>)
    requires forall i :: 0 <= i < |table| ==> table[i].galleryNumber == i + 1
    ensures NextNumber(table) == |table| + 1
  {
    var next := NextNumber(table);
    if |table| > 0 {
      var j :| 0 <= j < |table| && table[j].galleryNumber == next - 1;
      assert table[|table| - 1].galleryNumber < next;
    }
  }

  /** What the database stage ended in. */
  datatype DbOutcome =
    | ConnectFailed   // psycopg2.connect raised: `conn` is unbound in `finally`, so insert_db raises
    | QueryFailed     // connected, but the SELECT or INSERT raised: caught, and the uuid is still returned
    | Committed       // both statements ran and the connection committed

  /**
   * `insert_db` with the database's behaviour as a parameter: the table
   * afterwards, and the uuid the caller receives (None when the call raised).
   */
  function InsertDb(table: seq<Record>, outcome: DbOutcome, timestamp: string, ipSource: string, uuid: string)
    : (r: (seq<Record>, Option<string>))
    ensures r.1.Some? <==> outcome != ConnectFailed
    ensures r.1.Some? ==> r.1.value == uuid
    ensures outcome != Committed ==> r.0 == table
    ensures outcome == Committed ==> r.0 == table + [Record(timestamp, ipSource, uuid, NextNumber(table))]
  {
    match outcome
    case ConnectFailed => (table, None)
    case QueryFailed => (table, Some(uuid))
    case Committed => (Insert(table, timestamp, ipSource, uuid), Some(uuid))
  }
}

=== FILE: images.dfy ===
/**
 * What the model keeps of a Pillow image: its mode, its size and the keys of
 * its `info` dictionary (pixels are not modelled). `modify_image` flattens
 * transparency and stamps the creation time; `save_image` needs the two
 * metadata entries that stamping adds.
 */
module Images {

  /** An entry of the image's `info` dictionary. */
  datatype Meta =
    | Exif(dateTime: string, dateTimeOriginal: string, dateTimeDigitized: string)
    | PngText(fields: map<string, string>)
    | Decoded(raw: string)   // whatever the decoder found in the file itself

  datatype Image = Image(mode: string, width: nat, height: nat, info: map<string, Meta>)

  /** The two mode names `modify_image` flattens; other transparent images are not among them. */
  const AlphaModes: set<string> := {"RGBA", "LA"}
  const ExifKey := "exif"
  const PngInfoKey := "pnginfo"
  const CreationTimeField := "Creation Time"

  /** `save_image` reads both metadata entries; it raises when either is missing. */
  predicate HasSaveMetadata(img: Image) {
    ExifKey in img.info && PngInfoKey in img.info
  }

  /**
   * `modify_image`: an RGBA or LA image is pasted onto a new
   * white RGB image of the same size (whose `info` starts empty); any other
   * image is kept. Either way the EXIF date fields and the PNG text field
   * "Creation Time" are set to `stamp`.
   */
  function Normalize(img: Image, stamp: string): (r: Image)
    ensures r.width == img.width && r.height == img.height
    ensures img.mode in AlphaModes ==> r.mode == "RGB"
    ensures img.mode !in AlphaModes ==> r.mode == img.mode
    ensures HasSaveMetadata(r)
    ensures r.info[ExifKey] == Exif(stamp, stamp, stamp)
    ensures r.info[PngInfoKey] == PngText(map[CreationTimeField := stamp])
    ensures img.mode in AlphaModes ==> r.info.Keys == {ExifKey, PngInfoKey}
    ensures img.mode !in AlphaModes ==>
              r.info.Keys == img.info.Keys + {ExifKey, PngInfoKey}
              && forall k :: k in img.info && k != ExifKey && k != PngInfoKey ==> r.info[k] == img.info[k]
  {
    var flat := if img.mode in AlphaModes then Image("RGB", img.width, img.height, map[]) else img;
    flat.(info := flat.info[ExifKey := Exif(stamp, stamp, stamp)]
                           [PngInfoKey := PngText(map[CreationTimeField := stamp])])
  }

  /** Normalizing twice with the same stamp changes nothing the first pass did not. */
  lemma NormalizeIdempotent(img: Image, stamp: string)
    ensures Normalize(Normalize(img, stamp), stamp) == Normalize(img, stamp)
  {
    var once := Normalize(img, stamp);
    assert once.mode !in AlphaModes;
  }

  /**
   * No image leaves normalization as RGBA or LA, the two alpha modes the
   * code tests. Other transparent images (a palette or colour-key
   * transparency) pass through unchanged.
   */
  lemma NormalizeRemovesAlpha(img: Image, stamp: string)
    ensures Normalize(img, stamp).mode !in AlphaModes
  {
  }
}

=== FILE: multipart.dfy ===
/**
 * The request body `send_image_on_discord_webhook` builds: a
 * multipart/form-data body with a JSON part and a file part holding the PNG
 * bytes, a boundary made from a random hex token, and a Content-Length
 * header counting the body's bytes. The PNG encoding and the HTTPS call are
 * outside this module.
 */
module Multipart {
  import opened Utf8

  /** Python's `str(n)` for a natural number. */
  function Decimal(n: nat): (s: string)
    ensures |s| >= 1
    ensures forall i :: 0 <= i < |s| ==> '0' <= s[i] <= '9'
    ensures |s| > 1 ==> s[0] != '0'
  {
    if n < 10 then [DigitChar(n)] else Decimal(n / 10) + [DigitChar(n % 10)]
  }

  function DigitChar(d: nat): (c: char)
    requires d < 10
    ensures '0' <= c <= '9'
  {
    ('0' as int + d) as char
  }

  /** Reads a string of decimal digits back as a number, as `int(s)` would. */
  function DecimalValue(s: string): nat
    requires forall i :: 0 <= i < |s| ==> '0' <= s[i] <= '9'
  {
    if |s| == 0 then 0
    else DecimalValue(s[..|s| - 1]) * 10 + (s[|s| - 1] as int - '0' as int)
  }

  /** The Content-Length text reads back as the length it was made from. */
  lemma {:induction false} DecimalRoundTrip(n: nat)
    ensures DecimalValue(Decimal(n)) == n
    decreases n
  {
    if n >= 10 {
      DecimalRoundTrip(n / 10);
      var s := Decimal(n);
      assert s[..|s| - 1] == Decimal(n / 10);
    }
  }

  /** `s.replace(a, b)` for single characters. */
  function Replace(s: string, a: char, b: char): (r: string)
    ensures |r| == |s|
    ensures forall i :: 0 <= i < |s| ==> r[i] == if s[i] == a then b else s[i]
  {
    if |s| == 0 then [] else [if s[0] == a then b else s[0]] + Replace(s[1..], a, b)
  }

  /** After replacing `a` by a different character, no `a` is left. */
  lemma ReplaceRemoves(s: string, a: char, b: char)
    requires a != b
    ensures a !in Replace(s, a, b)
  {
  }

  /** Python's `s[:n]`, which clamps to the length of `s`. */
  function Take(s: string, n: nat): (r: string)
    ensures |r| == if |s| < n then |s| else n
    ensures r == s[..|r|]
  {
    if |s| <= n then s else s[..n]
  }

  /**
   * The file name as line 207 writes it: colons in `str(timestamp)` become
   * dots, but the first 16 characters of the base64 text are pasted in
   * unchanged.
   */
  function FilenameAsWritten(timestampText: string, base64: string): (name: string)
    ensures |name| == |timestampText| + 1 + |Take(base64, 16)| + 4
    ensures ':' in name <==> ':' in Take(base64, 16)
  {
    var stamp := Replace(timestampText, ':', '.');
    var t := Take(base64, 16);
    ReplaceRemoves(timestampText, ':', '.');
    SliceThree(stamp + " ", t, ".png");
    var name := stamp + " " + t + ".png";
    assert forall i :: 0 <= i < |stamp| ==> name[i] == stamp[i];
    assert forall i :: 0 <= i < |t| ==> name[|stamp| + 1 + i] == t[i];
    name
  }

  /**
   * `b64decode` skips characters outside the base64 alphabet, so a body
   * whose payload begins with ':' (say ":iVBORw0KGgo…", the base64 of a PNG
   * with a colon in front) still decodes to a valid PNG; the colon then
   * reaches the file name.
   */
  lemma FilenameAsWrittenKeepsColon(timestampText: string, base64: string)
    requires |base64| > 0 && base64[0] == ':'
    ensures ':' in FilenameAsWritten(timestampText, base64)
  {
    var stamp := Replace(timestampText, ':', '.');
    var t := Take(base64, 16);
    var f := FilenameAsWritten(timestampText, base64);
    assert f == stamp + " " + t + ".png";
    assert f[|stamp| + 1] == t[0] == ':';
  }

  /** The file name with every colon replaced, the base64 part included. */
  function Filename(timestampText: string, base64: string): (name: string)
    ensures ':' !in name
    ensures |name| == |timestampText| + 1 + |Take(base64, 16)| + 4
  {
    ReplaceRemoves(timestampText + " " + Take(base64, 16), ':', '.');
    Replace(timestampText + " " + Take(base64, 16), ':', '.') + ".png"
  }

  /** On the inputs the source expects (no colon in the base64 text) both file names agree. */
  lemma FilenameAgreesWithoutColon(timestampText: string, base64: string)
    requires ':' !in Take(base64, 16)
    ensures Filename(timestampText, base64) == FilenameAsWritten(timestampText, base64)
  {
    var t := Take(base64, 16);
    var whole := timestampText + " " + t;
    var a := Replace(whole, ':', '.');
    var b := Replace(timestampText, ':', '.') + " " + t;
    assert |a| == |b|;
    forall i | 0 <= i < |a|
      ensures a[i] == b[i]
    {
      if i > |timestampText| {
        assert whole[i] == t[i - |timestampText| - 1];
      }
    }
    assert a == b;
  }

  const BoundaryPrefix := "------Boundary"

  /** `f'------Boundary{uuid4().hex}'`: the token is recoverable from the boundary. */
  function Boundary(token: string): (b: string)
    ensures |b| == |BoundaryPrefix| + |token|
    ensures b[..|BoundaryPrefix|] == BoundaryPrefix && b[|BoundaryPrefix|..] == token
  {
    BoundaryPrefix + token
  }

  const JsonOpen := "{\"content\": \""
  const JsonClose := "\"}"

  /**
   * `json.dumps({"content": text})` for text that needs no escaping: the
   * text sits between the fixed opening and closing and can be read back.
   */
  function PayloadJson(timestampText: string): (json: string)
    ensures |json| == |JsonOpen| + |timestampText| + |JsonClose|
    ensures json[..|JsonOpen|] == JsonOpen
    ensures json[|JsonOpen|..|json| - |JsonClose|] == timestampText
    ensures json[|json| - |JsonClose|..] == JsonClose
  {
    SliceThree(JsonOpen, timestampText, JsonClose);
    JsonOpen + timestampText + JsonClose
  }

  function OpeningDelimiter(boundary: string): string {
    "--" + boundary + "\r\n"
  }

  function ClosingDelimiter(boundary: string): string {
    "\r\n--" + boundary + "--\r\n"
  }

  /** Where a concatenation of three strings keeps each of them. */
  lemma SliceThree(a: string, b: string, c: string)
    ensures var r := a + b + c;
            && r[..|a|] == a
            && r[|a|..|a| + |b|] == b
            && r[|a| + |b|..] == c
  {
  }

  const JsonPartHeader := "Content-Disposition: form-data; name=\"payload_json\"\r\nContent-Type: application/json\r\n\r\n"
  const FileDispositionStart := "Content-Disposition: form-data; name=\"file\"; filename=\""
  const FilePartTail := "\"\r\nContent-Type: application/octet-stream\r\n\r\n"

  /**
   * Everything of the text part after the opening delimiter: the JSON part's
   * headers, the JSON, the second delimiter and the file part's headers,
   * whose filename parameter closes the text.
   */
  function PartHeaders(boundary: string, timestampText: string, filename: string): (head: string)
    ensures |head| == |JsonPartHeader| + |PayloadJson(timestampText)|
                      + |"\r\n" + OpeningDelimiter(boundary) + FileDispositionStart|
                      + |filename| + |FilePartTail|
    ensures head[..|JsonPartHeader|] == JsonPartHeader
    ensures head[|JsonPartHeader|..|JsonPartHeader| + |PayloadJson(timestampText)|] == PayloadJson(timestampText)
    ensures head[|JsonPartHeader| + |PayloadJson(timestampText)|..|head| - |FilePartTail| - |filename|]
              == "\r\n" + OpeningDelimiter(boundary) + FileDispositionStart
    ensures head[|head| - |FilePartTail| - |filename|..|head| - |FilePartTail|] == filename
    ensures head[|head| - |FilePartTail|..] == FilePartTail
  {
    var json := PayloadJson(timestampText);
    var middle := "\r\n" + OpeningDelimiter(boundary) + FileDispositionStart;
    var front := JsonPartHeader + json + middle;
    SliceThree(JsonPartHeader, json, middle);
    SliceThree(front, filename, FilePartTail);
    var head := front + filename + FilePartTail;
    assert head[..|front|] == front;
    assert head[|JsonPartHeader|..|JsonPartHeader| + |json|] == front[|JsonPartHeader|..|JsonPartHeader| + |json|];
    head
  }

  /**
   * The encoded text part, then the PNG bytes, then the encoded closing
   * delimiter: the body opens with the first delimiter, ends with the
   * closing one and carries the PNG bytes right before it.
   */
  function Body(boundary: string, timestampText: string, filename: string, png: Bytes): (body: Bytes)
    ensures var open := Encode(OpeningDelimiter(boundary));
            var close := Encode(ClosingDelimiter(boundary));
            && |body| >= |open| + |png| + |close|
            && body[..|open|] == open
            && body[|body| - |close|..] == close
            && body[|body| - |close| - |png|..|body| - |close|] == png
  {
    FrameLayout(boundary, PartHeaders(boundary, timestampText, filename), png);
    Frame(boundary, PartHeaders(boundary, timestampText, filename), png)
  }

  function Frame(boundary: string, head: string, png: Bytes): Bytes {
    Encode(OpeningDelimiter(boundary) + head) + png + Encode(ClosingDelimiter(boundary))
  }

  /** A framed body starts and ends with the delimiters and has the PNG bytes right before the end. */
  lemma FrameLayout(boundary: string, head: string, png: Bytes)
    ensures var body := Frame(boundary, head, png);
            var open := Encode(OpeningDelimiter(boundary));
            var close := Encode(ClosingDelimiter(boundary));
            && |body| >= |open| + |png| + |close|
            && body[..|open|] == open
            && body[|body| - |close|..] == close
            && body[|body| - |close| - |png|..|body| - |close|] == png
  {
    var open := Encode(OpeningDelimiter(boundary));
    var close := Encode(ClosingDelimiter(boundary));
    EncodeAppend(OpeningDelimiter(boundary), head);
    var h := Encode(head);
    var body := Frame(boundary, head, png);
    assert body == open + h + png + close;
  }

  datatype Header = Header(name: string, value: string)

  /** The outgoing webhook call: fixed host, the configured path, headers and body. */
  datatype WebhookRequest = WebhookRequest(host: string, path: string, headers: seq<Header>, body: Bytes)

  const WebhookHost := "discord.com"

  function BuildRequest(path: string, token: string, timestampText: string, base64: string, png: Bytes)
    : (r: WebhookRequest)
    ensures r.host == WebhookHost && r.path == path
    ensures |r.headers| == 2
    ensures r.headers[0] == Header("Content-Type", "multipart/form-data; boundary=" + Boundary(token))
    ensures r.headers[1].name == "Content-Length"
    ensures forall i :: 0 <= i < |r.headers[1].value| ==> '0' <= r.headers[1].value[i] <= '9'
    ensures r.body == Body(Boundary(token), timestampText, FilenameAsWritten(timestampText, base64), png)
    ensures DecimalValue(r.headers[1].value) == |r.body|
  {
    var boundary := Boundary(token);
    var body := Body(boundary, timestampText, FilenameAsWritten(timestampText, base64), png);
    DecimalRoundTrip(|body|);
    WebhookRequest(WebhookHost, path,
                   [Header("Content-Type", "multipart/form-data; boundary=" + boundary),
                    Header("Content-Length", Decimal(|body|))],
                   body)
  }

  /**
   * The body opens with the first boundary delimiter, carries the PNG bytes
   * just before the closing delimiter, ends with the closing delimiter, and
   * its Content-Length header reads back as its length in bytes.
   */
  lemma BuildRequestFraming(path: string, token: string, timestampText: string, base64: string, png: Bytes)
    ensures var r := BuildRequest(path, token, timestampText, base64, png);
            var open := Encode(OpeningDelimiter(Boundary(token)));
            var close := Encode(ClosingDelimiter(Boundary(token)));
            && |r.body| >= |open| + |png| + |close|
            && r.body[..|open|] == open
            && r.body[|r.body| - |close|..] == close
            && r.body[|r.body| - |close| - |png|..|r.body| - |close|] == png
            && DecimalValue(r.headers[1].value) == |r.body|
  {
    var r := BuildRequest(path, token, timestampText, base64, png);
    var body := Body(Boundary(token), timestampText, FilenameAsWritten(timestampText, base64), png);
    assert r.body == body;
  }
}

=== FILE: rate_gate.dfy ===
/**
 * The global rate gate at the top of `do_POST`: the request's time is
 * appended to the shared history, the history is pruned to the timestamps
 * still inside the retention period, and the request is refused when what
 * remains is longer than the limit. Timestamps are only compared, so they
 * are integers here.
 */
module RateGate {

  /** A timestamp `t` is still inside the window at time `now`. */
  predicate Live(t: int, now: int, period: int) {
    t + period > now
  }

  /** The list comprehension that drops expired timestamps. */
  function Prune(history: seq<int>, now: int, period: int): (kept: seq<int>)
    ensures |kept| <= |history|
    ensures forall i :: 0 <= i < |kept| ==> Live(kept[i], now, period)
    ensures forall t :: t in kept <==> t in history && Live(t, now, period)
  {
    if |history| == 0 then []
    else
      var rest := Prune(history[1..], now, period);
      if Live(history[0], now, period) then [history[0]] + rest else rest
  }

  /** The gate's result: the new shared history and whether the request may proceed. */
  datatype Verdict = Verdict(window: seq<int>, admitted: bool)

  function Gate(history: seq<int>, now: int, period: int, limit: int): (v: Verdict)
    ensures v.window == Prune(history, now, period) + (if period > 0 then [now] else [])
    ensures forall i :: 0 <= i < |v.window| ==> Live(v.window[i], now, period)
    ensures forall t :: t in v.window <==> (t in history || t == now) && Live(t, now, period)
    ensures v.admitted <==> |v.window| <= limit
    ensures period > 0 ==> |v.window| > 0 && v.window[|v.window| - 1] == now
  {
    var window := Prune(history + [now], now, period);
    PruneAppend(history, [now], now, period);
    Verdict(window, |window| <= limit)
  }

  /**
   * Pruning distributes over concatenation: what survives from an earlier
   * stretch of history stays in front of what survives from a later one, so
   * retained timestamps keep their relative order.
   */
  lemma {:induction false} PruneAppend(a: seq<int>, b: seq<int>, now: int, period: int)
    ensures Prune(a + b, now, period) == Prune(a, now, period) + Prune(b, now, period)
    decreases |a|
  {
    if |a| == 0 {
      assert a + b == b;
    } else {
      assert (a + b)[0] == a[0];
      assert (a + b)[1..] == a[1..] + b;
      PruneAppend(a[1..], b, now, period);
    }
  }

  /** Each timestamp survives as many times as it occurred, if it is live, and not at all otherwise. */
  lemma {:induction false} PruneCounts(history: seq<int>, now: int, period: int, t: int)
    ensures multiset(Prune(history, now, period))[t]
            == if Live(t, now, period) then multiset(history)[t] else 0
    decreases |history|
  {
    if |history| > 0 {
      PruneCounts(history[1..], now, period, t);
      assert history == [history[0]] + history[1..];
    }
  }

  /** When nothing has expired, pruning keeps the history as it is. */
  lemma {:induction false} PruneAllLive(history: seq<int>, now: int, period: int)
    requires forall i :: 0 <= i < |history| ==> Live(history[i], now, period)
    ensures Prune(history, now, period) == history
    decreases |history|
  {
    if |history| > 0 {
      PruneAllLive(history[1..], now, period);
    }
  }

  predicate Ascending(s: seq<int>) {
    forall i, j :: 0 <= i < j < |s| ==> s[i] <= s[j]
  }

  /**
   * On a history in time order, pruning is a sliding window: it cuts off a
   * prefix of expired timestamps and keeps the rest whole.
   */
  lemma {:induction false} PruneAscendingIsSuffix(history: seq<int>, now: int, period: int)
    requires Ascending(history)
    ensures exists k :: 0 <= k <= |history| && Prune(history, now, period) == history[k..]
    decreases |history|
  {
    if |history| == 0 {
      assert Prune(history, now, period) == history[0..];
    } else if Live(history[0], now, period) {
      PruneAllLive(history, now, period);
      assert Prune(history, now, period) == history[0..];
    } else {
      PruneAscendingIsSuffix(history[1..], now, period);
      var k :| 0 <= k <= |history[1..]| && Prune(history[1..], now, period) == history[1..][k..];
      assert history[1..][k..] == history[k + 1..];
    }
  }

  /** A limit of zero (or less) with a positive period refuses every request. */
  lemma ZeroLimitRefusesAll(history: seq<int>, now: int, period: int, limit: int)
    requires period > 0 && limit <= 0
    ensures !Gate(history, now, period, limit).admitted
  {
  }

  /**
   * With a positive period, a refused request is still recorded in the
   * shared history. With period 0 its timestamp is pruned at once.
   */
  lemma RefusedRequestIsRecorded(history: seq<int>, now: int, period: int, limit: int)
    requires period > 0
    ensures now in Gate(history, now, period, limit).window
  {
  }

  /** When nothing is live, pruning empties the history. */
  lemma {:induction false} PruneNoneLive(history: seq<int>, now: int, period: int)
    requires forall i :: 0 <= i < |history| ==> !Live(history[i], now, period)
    ensures Prune(history, now, period) == []
    decreases |history|
  {
    if |history| > 0 {
      PruneNoneLive(history[1..], now, period);
    }
  }

  /**
   * A period of zero empties the window whenever no recorded timestamp lies
   * in the future, so then only a negative limit refuses.
   */
  lemma ZeroPeriodEmptiesWindow(history: seq<int>, now: int, limit: int)
    requires forall i :: 0 <= i < |history| ==> history[i] <= now
    ensures Gate(history, now, 0, limit).window == []
    ensures Gate(history, now, 0, limit).admitted <==> limit >= 0
  {
    PruneNoneLive(history + [now], now, 0);
  }

  /** The shared history after serving `times` in order, starting from the empty history. */
  function WindowAfter(times: seq<int>, period: int, limit: int): seq<int>
    decreases |times|
  {
    if |times| == 0 then []
    else Gate(WindowAfter(times[..|times| - 1], period, limit), times[|times| - 1], period, limit).window
  }

  /** Whether the request at position k of the run is admitted. */
  function AdmittedAt(times: seq<int>, k: nat, period: int, limit: int): bool
    requires k < |times|
  {
    Gate(WindowAfter(times[..k], period, limit), times[k], period, limit).admitted
  }

  /** Request times in order that all fall inside one retention period. */
  predicate Burst(times: seq<int>, period: int) {
    && |times| > 0
    && Ascending(times)
    && times[|times| - 1] < times[0] + period
  }

  /** During a burst nothing expires: the window is every request so far. */
  lemma {:induction false} BurstWindow(times: seq<int>, n: nat, period: int, limit: int)
    requires Burst(times, period) && n <= |times|
    ensures WindowAfter(times[..n], period, limit) == times[..n]
    decreases n
  {
    if n > 0 {
      var p := times[..n];
      var now := times[n - 1];
      BurstWindow(times, n - 1, period, limit);
      assert p[..n - 1] == times[..n - 1];
      assert p[n - 1] == now;
      assert WindowAfter(p, period, limit) == Gate(times[..n - 1], now, period, limit).window;
      assert times[..n - 1] + [now] == p;
      BurstLive(times, n, period);
      PruneAllLive(p, now, period);
    }
  }

  /** Inside a burst every earlier request time is still live at a later request. */
  lemma BurstLive(times: seq<int>, n: nat, period: int)
    requires Burst(times, period) && 0 < n <= |times|
    ensures forall i :: 0 <= i < n ==> Live(times[..n][i], times[n - 1], period)
  {
    forall i | 0 <= i < n
      ensures Live(times[..n][i], times[n - 1], period)
    {
      assert times[n - 1] <= times[|times| - 1];
      assert times[0] <= times[i];
    }
  }

  /**
   * In a burst the k-th request (counting from 0) sees a window of k + 1
   * timestamps, so exactly the first `limit` requests are admitted and every
   * later one is refused.
   */
  lemma BurstAdmitsExactlyLimit(times: seq<int>, period: int, limit: int)
    requires Burst(times, period)
    ensures forall k :: 0 <= k < |times| ==> (AdmittedAt(times, k, period, limit) <==> k < limit)
  {
    forall k | 0 <= k < |times|
      ensures AdmittedAt(times, k, period, limit) <==> k < limit
    {
      BurstWindow(times, k + 1, period, limit);
      BurstWindow(times, k, period, limit);
      var p := times[..k + 1];
      assert p[..k] == times[..k] && p[k] == times[k];
      assert Gate(times[..k], times[k], period, limit).window == p;
    }
  }
}

=== FILE: utf8.dfy ===
/**
 * UTF-8 as Python's `str.encode()` and strict `bytes.decode("utf-8")` use it.
 * The request body arrives as bytes and is decoded before it is split; the
 * multipart webhook body is text encoded back to bytes, and its
 * Content-Length counts those bytes.
 */
module Utf8 {
  import opened Wrappers

  newtype byte = b: int | 0 <= b < 256
  type Bytes = seq<byte>

  /** Number of bytes the encoding of `c` takes. */
  function Width(c: char): (n: nat)
    ensures 1 <= n <= 4
  {
    var v := c as int;
    if v < 0x80 then 1 else if v < 0x800 then 2 else if v < 0x1_0000 then 3 else 4
  }

  predicate IsContinuation(b: byte) {
    0x80 <= b < 0xC0
  }

  /** The shortest-form encoding of one Unicode scalar value. */
  function EncodeChar(c: char): (bs: Bytes)
    ensures |bs| == Width(c)
    ensures c as int < 0x80 ==> bs == [c as int as byte]
    ensures forall i :: 1 <= i < |bs| ==> IsContinuation(bs[i])
  {
    var v := c as int;
    if v < 0x80 then [v as byte]
    else if v < 0x800 then [(0xC0 + v / 64) as byte, (0x80 + v % 64) as byte]
    else if v < 0x1_0000 then
      [(0xE0 + v / 4096) as byte, (0x80 + (v / 64) % 64) as byte, (0x80 + v % 64) as byte]
    else
      [(0xF0 + v / 262144) as byte, (0x80 + (v / 4096) % 64) as byte,
       (0x80 + (v / 64) % 64) as byte, (0x80 + v % 64) as byte]
  }

  function Encode(s: string): (bs: Bytes)
    ensures |bs| >= |s|
  {
    if |s| == 0 then [] else EncodeChar(s[0]) + Encode(s[1..])
  }

  /**
   * Reads one character from the front of `bs`, returning it with the number
   * of bytes it took; None for a byte sequence a strict decoder refuses
   * (stray continuation byte, truncated sequence, overlong form, surrogate,
   * value above U+10FFFF).
   */
  function DecodeFirst(bs: Bytes): (r: Option<(char, nat)>)
    requires |bs| > 0
    ensures r.Some? ==> 1 <= r.value.1 <= |bs| && r.value.1 == Width(r.value.0)
  {
    var b0 := bs[0] as int;
    if b0 < 0x80 then Some((b0 as char, 1))
    else if 0xC0 <= b0 < 0xE0 then
      if |bs| < 2 || !IsContinuation(bs[1]) then None
      else
        var v := (b0 - 0xC0) * 64 + (bs[1] as int - 0x80);
        if v < 0x80 then None else Some((v as char, 2))
    else if 0xE0 <= b0 < 0xF0 then
      if |bs| < 3 || !IsContinuation(bs[1]) || !IsContinuation(bs[2]) then None
      else
        var v := (b0 - 0xE0) * 4096 + (bs[1] as int - 0x80) * 64 + (bs[2] as int - 0x80);
        if v < 0x800 || (0xD800 <= v < 0xE000) then None else Some((v as char, 3))
    else if 0xF0 <= b0 < 0xF8 then
      if |bs| < 4 || !IsContinuation(bs[1]) || !IsContinuation(bs[2]) || !IsContinuation(bs[3]) then None
      else
        var v := (b0 - 0xF0) * 262144 + (bs[1] as int - 0x80) * 4096
                 + (bs[2] as int - 0x80) * 64 + (bs[3] as int - 0x80);
        if v < 0x1_0000 || 0x11_0000 <= v then None else Some((v as char, 4))
    else None
  }

  /**
   * Strict decoding: None exactly when some character cannot be read. What
   * it accepts is always the encoding of what it returns, so it refuses
   * every byte sequence that is not the shortest-form encoding of scalar
   * values.
   */
  function Decode(bs: Bytes): (r: Option<string>)
    ensures r.Some? ==> |r.value| <= |bs|
    ensures r.Some? ==> Encode(r.value) == bs
    decreases |bs|
  {
    if |bs| == 0 then Some([])
    else match DecodeFirst(bs)
      case None => None
      case Some((c, n)) =>
        match Decode(bs[n..])
        case None => None
        case Some(rest) =>
          EncodeCharDecodeFirst(bs);
          assert ([c] + rest)[0] == c && ([c] + rest)[1..] == rest;
          assert bs == bs[..n] + bs[n..];
          Some([c] + rest)
  }

  /** Division by 64 of a value built from a high part and six low bits. */
  lemma DivMod64(a: int, r: int)
    requires a >= 0 && 0 <= r < 64
    ensures (a * 64 + r) / 64 == a && (a * 64 + r) % 64 == r
  {
  }

  /** Whatever DecodeFirst reads is encoded back to exactly the bytes it consumed. */
  lemma EncodeCharDecodeFirst(bs: Bytes)
    requires |bs| > 0 && DecodeFirst(bs).Some?
    ensures EncodeChar(DecodeFirst(bs).value.0) == bs[..DecodeFirst(bs).value.1]
  {
    var b0 := bs[0] as int;
    if 0xC0 <= b0 < 0xE0 {
      var x := b0 - 0xC0;
      var y := bs[1] as int - 0x80;
      DivMod64(x, y);
    } else if 0xE0 <= b0 < 0xF0 {
      EncodeCharDecodeThree(bs);
    } else if 0xF0 <= b0 < 0xF8 {
      EncodeCharDecodeFour(bs);
    }
  }

  lemma EncodeCharDecodeThree(bs: Bytes)
    requires |bs| > 0 && 0xE0 <= bs[0] < 0xF0 && DecodeFirst(bs).Some?
    ensures EncodeChar(DecodeFirst(bs).value.0) == bs[..3]
  {
    var x := bs[0] as int - 0xE0;
    var y := bs[1] as int - 0x80;
    var z := bs[2] as int - 0x80;
    var v := x * 4096 + y * 64 + z;
    var q := x * 64 + y;
    assert v == q * 64 + z;
    DivMod64(q, z);
    DivMod64(x, y);
    assert v / 4096 == x by {
      assert v / 4096 == (v / 64) / 64;
    }
    var e := EncodeChar(DecodeFirst(bs).value.0);
    assert e == [(0xE0 + v / 4096) as byte, (0x80 + (v / 64) % 64) as byte, (0x80 + v % 64) as byte];
  }

  lemma EncodeCharDecodeFour(bs: Bytes)
    requires |bs| > 0 && 0xF0 <= bs[0] < 0xF8 && DecodeFirst(bs).Some?
    ensures EncodeChar(DecodeFirst(bs).value.0) == bs[..4]
  {
    var x := bs[0] as int - 0xF0;
    var y := bs[1] as int - 0x80;
    var z := bs[2] as int - 0x80;
    var w := bs[3] as int - 0x80;
    var v := x * 262144 + y * 4096 + z * 64 + w;
    var p := x * 64 + y;
    var q := p * 64 + z;
    assert v == q * 64 + w;
    DivMod64(q, w);
    DivMod64(p, z);
    DivMod64(x, y);
    assert v / 4096 == p by {
      assert v / 4096 == (v / 64) / 64;
    }
    assert v / 262144 == x by {
      assert v / 262144 == (v / 4096) / 64;
    }
    var e := EncodeChar(DecodeFirst(bs).value.0);
    assert e == [(0xF0 + v / 262144) as byte, (0x80 + (v / 4096) % 64) as byte,
                 (0x80 + (v / 64) % 64) as byte, (0x80 + v % 64) as byte];
  }

  /** The decoder accepts exactly the byte sequences that are encodings of some text. */
  lemma DecodeAcceptsExactlyEncodings(bs: Bytes)
    ensures Decode(bs).Some? <==> exists s :: Encode(s) == bs
  {
    if exists s :: Encode(s) == bs {
      var s :| Encode(s) == bs;
      DecodeEncode(s);
    }
  }

  /**
   * Byte sequences the strict decoder refuses: a stray continuation byte,
   * an overlong form of '/', an encoded surrogate, a value above U+10FFFF
   * and a truncated sequence.
   */
  lemma DecodeRefusesMalformed()
    ensures Decode([0x80]) == None
    ensures Decode([0xC0, 0xAF]) == None
    ensures Decode([0xED, 0xA0, 0x80]) == None
    ensures Decode([0xF4, 0x90, 0x80, 0x80]) == None
    ensures Decode([0xE2, 0x82]) == None
  {
    assert DecodeFirst([0x80]) == None;
    assert DecodeFirst([0xC0, 0xAF]) == None;
    assert DecodeFirst([0xED, 0xA0, 0x80]) == None;
    assert DecodeFirst([0xF4, 0x90, 0x80, 0x80]) == None;
    assert DecodeFirst([0xE2, 0x82]) == None;
  }

  /** Splits a value into a high part and six low bits. */
  lemma SixBits(v: int)
    requires v >= 0
    ensures v == (v / 64) * 64 + v % 64 && 0 <= v % 64 < 64
  {
  }

  lemma DecodeFirstTwoBytes(c: char, rest: Bytes)
    requires 0x80 <= c as int < 0x800
    ensures DecodeFirst(EncodeChar(c) + rest) == Some((c, 2))
  {
    var v := c as int;
    var bs := EncodeChar(c) + rest;
    SixBits(v);
    assert bs[0] as int - 0xC0 == v / 64 && bs[1] as int - 0x80 == v % 64;
  }

  lemma DecodeFirstThreeBytes(c: char, rest: Bytes)
    requires 0x800 <= c as int < 0x1_0000
    ensures DecodeFirst(EncodeChar(c) + rest) == Some((c, 3))
  {
    var v := c as int;
    var bs := EncodeChar(c) + rest;
    var q := v / 64;
    SixBits(v);
    SixBits(q);
    assert q / 64 == v / 4096;
    assert bs[0] as int - 0xE0 == q / 64;
    assert bs[1] as int - 0x80 == q % 64;
    assert bs[2] as int - 0x80 == v % 64;
    assert v == (q / 64) * 4096 + (q % 64) * 64 + v % 64;
  }

  lemma DecodeFirstFourBytes(c: char, rest: Bytes)
    requires 0x1_0000 <= c as int
    ensures DecodeFirst(EncodeChar(c) + rest) == Some((c, 4))
  {
    var v := c as int;
    var bs := EncodeChar(c) + rest;
    var q := v / 64;
    var p := q / 64;
    SixBits(v);
    SixBits(q);
    SixBits(p);
    assert p == v / 4096;
    assert p / 64 == v / 262144;
    assert bs[0] as int - 0xF0 == p / 64;
    assert bs[1] as int - 0x80 == p % 64;
    assert bs[2] as int - 0x80 == q % 64;
    assert bs[3] as int - 0x80 == v % 64;
    assert v == (p / 64) * 262144 + (p % 64) * 4096 + (q % 64) * 64 + v % 64;
  }

  /** Decoding the encoding of one character gives it back, whatever follows. */
  lemma DecodeFirstEncodeChar(c: char, rest: Bytes)
    ensures DecodeFirst(EncodeChar(c) + rest) == Some((c, Width(c)))
  {
    var v := c as int;
    if v < 0x80 {
    } else if v < 0x800 {
      DecodeFirstTwoBytes(c, rest);
    } else if v < 0x1_0000 {
      DecodeFirstThreeBytes(c, rest);
    } else {
      DecodeFirstFourBytes(c, rest);
    }
  }

  /** Encoding distributes over concatenation. */
  lemma {:induction false} EncodeAppend(a: string, b: string)
    ensures Encode(a + b) == Encode(a) + Encode(b)
    decreases |a|
  {
    if |a| == 0 {
      assert a + b == b;
    } else {
      assert (a + b)[0] == a[0];
      assert (a + b)[1..] == a[1..] + b;
      EncodeAppend(a[1..], b);
    }
  }

  /** The strict decoder reads back every encoded string. */
  lemma {:induction false} DecodeEncode(s: string)
    ensures Decode(Encode(s)) == Some(s)
    decreases |s|
  {
    if |s| == 0 {
    } else {
      var head := EncodeChar(s[0]);
      var tail := Encode(s[1..]);
      assert Encode(s) == head + tail;
      DecodeFirstEncodeChar(s[0], tail);
      assert (head + tail)[|head|..] == tail;
      DecodeEncode(s[1..]);
      assert [s[0]] + s[1..] == s;
    }
  }
}

=== FILE: wrappers.dfy ===
/** Failure-carrying datatypes shared by the modules of the model. */
module Wrappers {

  /** A value that may be absent. */
  datatype Option<+T> = None | Some(value: T)

  /** Either a value or the reason there is none. */
  datatype Result<+R, +E> = Success(value: R) | Failure(error: E)
}
